=== FILE: README.md ===
# Loja.Digital storefront: cart and catalog model

This project models the cart and catalog logic of the `Shop` controller of the
Loja.Digital storefront (`src/js/script.js`):

- the five cart mutations: add to cart, increase, decrease, remove and clear;
- the header's item count and the cart modal's total;
- checkout, which hands an order summary to the chat application and empties
  the cart;
- `filterAndSortProducts`, the case-insensitive search and the five sort
  options of the product grid;
- the write-through of the cart to the `cart` key of local storage;
- the evident intent of the module-level `addToCart` / `loadFromLocalStorage`
  fragments that coerce the price with `Number(...)`.

Prices are integer cents, so R$ 10.90 is `1090`. Product ids are integers
(`Number.parseInt` of the `data-id` attribute happens at the event boundary).
Every mutation returns an `Outcome`. It holds the new cart, the number of
storage writes the mutation made (one per `updateCartCount` call) and the
notification it showed. A path that leaves the cart unchanged writes nothing.
Such a path shows no notification, except the "product not found" error of
add to cart and the four error notifications of a rejected checkout.

Two browser facilities are parameters. `lower: char -> char` is the
per-character effect of `toLowerCase`. `nameLe(a, b)` stands for
"`a.localeCompare(b)` is not positive". The name sorts are proved ordered
whenever `nameLe` is a total preorder. `Array.prototype.sort` is modelled as
an insertion sort, which is stable, as ECMAScript 2019 requires of `sort`.

Modules, in dependency order:

- `ShopModel` (model.dfy): products, cart lines, the cart invariants, lookup by
  id, the item count and total, and `Without` (the cart minus one id).
- `CartEngine` (cart_engine.dfy): the five cart mutations.
- `CartLaws` (cart_laws.dfy): how the mutations relate to each other.
- `Totals` (totals.dfy): the `reduce` / `forEach` loops as methods.
- `CatalogView` (catalog_view.dfy): search, sort and their composition.
- `CheckoutFlow` (checkout.dfy): checkout.
- `Shop` (shop.dfy): the controller as a state machine over user events, with
  storage.
- `Scenarios` (scenarios.dfy): worked examples on concrete products.

## Model

| member | source | states |
|---|---|---|
| ShopModel.FindLine | src/js/script.js:349 | `cart.find` by id: no index exactly when no line has the id; otherwise the first line with that id |
| ShopModel.FindProduct | src/js/script.js:341-346 | `products.find` by id: none exactly when the catalog lacks the id; otherwise the first catalog product with that id |
| ShopModel.ItemCountBounds | src/js/script.js:264-267 | with positive quantities the item count is at least the number of lines, and it is zero exactly when the cart is empty |
| ShopModel.TotalNonNegative | src/js/script.js:298-302 | the cart total is never negative when prices are non-negative and quantities positive |
| ShopModel.WithoutIsSplice | src/js/script.js:406-410 | with unique ids, splicing out the line at index i is the same as dropping every line with its id |
| CartEngine.AddToCart | src/js/script.js:340-364 | unknown id: cart unchanged, "not found" notice, no write. Known id: one write, item count +1, total + price. An existing line, the first with the id, has its quantity raised by one and nothing else changes, on any cart; otherwise `{...product, quantity: 1}` is appended. Unique ids and positive quantities are kept |
| CartEngine.IncreaseQuantity | src/js/script.js:370-378 | missing id: no change and no write; otherwise exactly the first matching line gains one unit (with unique ids, exactly the line with that id), with one write and item count +1; the cart invariants are kept |
| CartEngine.DecreaseQuantity | src/js/script.js:384-399 | missing id: no change and no write; quantity above 1: exactly the first matching line loses one unit, with one write; quantity 1 or less: the result is exactly `removeFromCart`; on a valid cart the item count drops by one |
| CartEngine.RemoveFromCart | src/js/script.js:405-417 | missing id: no change and no write; otherwise one line fewer, one write, a notice naming the removed line, count and total drop by that line, and with unique ids the id is gone and the rest keep their order |
| CartEngine.ClearCart | src/js/script.js:422-430 | the result is empty; it writes once and notifies exactly when the cart was non-empty |
| CartLaws.IncreaseThenDecrease | src/js/script.js:370-399 | on a valid cart, increasing then decreasing a present line restores the cart exactly |
| CartLaws.DecreaseThenIncrease | src/js/script.js:370-399 | on a valid cart, decreasing a line whose quantity is above 1 and then increasing it restores the cart exactly |
| CartLaws.AddNewThenRemove | src/js/script.js:340-417 | adding a catalog product not yet in the cart and then removing it restores the cart |
| CartLaws.AddTwice | src/js/script.js:349-357 | adding the same new product twice appends one line with quantity 2 and raises the item count by 2 |
| CartLaws.DecreaseToZeroRemoves | src/js/script.js:384-399 | on a valid cart, decreasing a line as many times as its quantity gives exactly the cart without that line |
| Totals.CountItems | src/js/script.js:264 | the `reduce` loop returns the sum of the quantities; with positive quantities this is at least the line count |
| Totals.CartTotal | src/js/script.js:298-302 | the `forEach` loop returns the sum of price × quantity; it is non-negative when prices are |
| CatalogView.Select | src/js/script.js:135 | a product is kept exactly when it is in the catalog and its lower-cased name contains the lower-cased query; every matching occurrence is kept, as often as in the catalog, in catalog order |
| CatalogView.FilterProducts | src/js/script.js:133-138 | an empty query keeps the whole catalog; otherwise exactly the matching products, each as often as in the catalog, in catalog order |
| CatalogView.SortSorts | src/js/script.js:141-153 | the sort puts any sequence in the comparator's order when the comparator is a total preorder |
| CatalogView.NameOrdersArePreorders | src/js/script.js:148-153 | both name comparators are total preorders on products whenever the string comparison is one |
| CatalogView.SortIsStable | src/js/script.js:141-153 | under a total preorder, for every product z, the products the comparator ties with z come out in their input order |
| CatalogView.SortViewIsStable | src/js/script.js:141-157 | with `nameLe` a total preorder for the name options, every sort option keeps products it ranks equal in catalog order; `default` ties everything and so keeps the view |
| CatalogView.SortView | src/js/script.js:141-157 | the result is a permutation of the view; `default` keeps it unchanged; price options order by rising or falling price; name options order by `nameLe` when it is a total preorder |
| CatalogView.FilterAndSortProducts | src/js/script.js:131-161 | the grid shows a permutation of the filtered catalog ordered by the chosen option; membership is exactly "in the catalog and matches"; with `default` it is a subsequence of the catalog, and with no query it is the catalog |
| CheckoutFlow.OrderLines | src/js/script.js:466-469 | one summary line per cart line, in order, carrying its name, quantity and price × quantity |
| CheckoutFlow.SummaryAddsUp | src/js/script.js:466-472 | the summary's grand total equals the sum of its line subtotals |
| CheckoutFlow.Checkout | src/js/script.js:435-492 | an order is handed off exactly when the cart is non-empty and name, phone and address are all given. The checks run in that order, and the first failing one names the rejection. A rejection changes and writes nothing and shows its one error. A hand-off carries the customer, exactly the cart's summary lines and the cart total. It then clears the cart as `clearCart` does, with one write, and shows "cart emptied" followed by "order sent" |
| Shop.Restore | src/js/script.js:48-76 | the class method `loadFromLocalStorage` that `init` calls: a saved cart comes back as saved; a missing key leaves the constructor's empty cart, and unreadable data resets the cart to empty |
| Shop.Save | src/js/script.js:270 | what is written to the `cart` key reads back as the same cart |
| Shop.RestoreCoercing | src/js/script.js:813-826 | a saved cart is restored as it was saved; missing or unreadable data leaves the current cart, which differs from the class method's reset to empty |
| Shop.Start | src/js/script.js:26-34 | the part of `init` before `await this.loadProducts()`: the cart is restored, nothing is written, the catalog is still empty, the search is empty and the sort is `default`, and storage reads back as the current cart; user events may follow before the load ends |
| Shop.Step | src/js/script.js:597-723 | for every user event and for the end of `init`'s load: storage keeps reading back as the current cart, and every write stores exactly the current cart. A user event writes exactly when it changes the cart, at most once; the end of `init` writes the unchanged cart once. The cart invariants are kept, only a successful load replaces the catalog and then shows all of it, and after a search or sort the view is the filtered catalog, reordered |
| Shop.InitAlone | src/js/script.js:26-37 | `init` with no user event during the load ends with the loaded catalog (empty after a failed fetch), the restored cart written once, an empty search and `default` sort |
| Shop.InitInterleaved | src/js/script.js:26-37 | whatever user events land while `init` awaits the catalog, once `init` finishes storage holds exactly the current cart and a valid restored cart is still valid |
| Shop.RunKeepsInvariants | src/js/script.js:262-271 | along any event sequence, including the end of `init`, storage keeps reading back as the current cart, a valid cart stays valid, and the write count never drops |
| Shop.DefaultRestoresCatalogOrder | src/js/script.js:154-156 | choosing `default` with an empty search shows the catalog in its own order |
| Scenarios.SearchIgnoresCase | src/js/script.js:133-135 | the query "art" finds the product "Arte 1" under ASCII lower-casing |
| Scenarios.PriceDescendingReversesRisingCatalog | src/js/script.js:145-147 | with no search, `price-desc` on a catalog listed in strictly rising price shows it exactly reversed |
| Scenarios.AddAddRemove | src/js/script.js:340-417 | from an empty cart, add product 1 twice and remove it: counts 1 then 2, totals R$ 10.90 then R$ 21.80, an empty cart saved at the end, four writes in all |

## Left out

- Rendering is not modelled: `renderProducts`, `updateCartModal`'s markup, `showProductDetails`, notification markup and timers, focus handling. Notifications are kept only as which message was shown, and in which order for checkout.
- Theme handling (`applyTheme`, `toggleTheme`, the `theme` storage key), `initForms`, the footer year and modal open/close wiring are not modelled.
- The event wiring is not modelled: `Number.parseInt` of `data-id`, the `trim` of the search box and the `value` of the sort select. Events carry the already-parsed id, trimmed query and option.
- The fetch, its 500 ms delay and the loading indicators are not modelled. A load is an input that either yields a product list or fails. Products JSON that parses but has the wrong shape is not modelled.
- The retry button starts `loadProducts` from two listeners. Two identical loads end in the same state, so one `RetryLoad` stands for both.
- A reload resets the view to the full catalog without re-applying the current search and sort, as the source does. No property beyond that equality is claimed for it.
- Floating-point prices and `toFixed(2)` are not modelled, because prices are integer cents. The summary text, its URL encoding, the phone number and `window.open` are transport, not logic.
- `prompt` returning `null` and returning `""` are both modelled as the empty string; the source rejects both alike.
- String prices are not modelled. Lines 777-826 are module-level fragments with elided bodies, and nothing in the file calls them. They use `products`, `cart`, `showNotification`, `updateCartCount` and `updateCartModal` unqualified, and none of these is declared outside the `Shop` class. The model captures only their evident intent. For `addToCart` (lines 790-812) that is `Shop.addToCart` with `Number(product.price)`, which is the identity on an integer price, so `CartEngine.AddToCart` stands for it. For `loadFromLocalStorage` (lines 813-826) that is `Shop.RestoreCoercing`, on an undeclared global `cart` rather than the controller's cart.
- `toLowerCase` is a per-character map (`lower`). Case mappings that change the length of a string are not modelled. Neither are context-dependent ones such as the Greek final sigma: "ΟΔΟΣ" lower-cases to "οδος" but "ΣΟΦΙΑ" to "σοφια", which no single `lower('Σ')` reproduces.
- `localeCompare` is the parameter `nameLe`. The name orderings are proved only when it is a total preorder.
- Shop.Step: every `localStorage.setItem("cart", ...)` is assumed to succeed. In the source it can throw (quota exceeded, storage disabled), and nothing catches it. Every caller changes the cart before `updateCartCount`, so a throw leaves storage holding the old cart. It also skips `updateCartModal` and the remove and clear notices, and at `init` it skips `initForms`. In checkout it comes after `window.open`, so the order is sent but the old cart returns on reload. "Storage reads back as the current cart" holds only under this assumption.
- Shop.Restore: the theme code at lines 57-66 runs in the same `try` as the cart restore. A throw there reaches the `catch`, which resets an already parsed cart to `[]`. The model does not include that failure: only unreadable cart data resets the cart.
- Shop.Restore: stored text that `JSON.parse` rejects is a separate `Unreadable` case. A stored value that parses to something other than a list of cart lines is not modelled.

=== FILE: cart_engine.dfy ===
/**
 The five cart mutations of the `Shop` class, as pure functions from the old
 cart to an `Outcome`: the new cart, the number of storage writes the call
 performs (each `updateCartCount` call writes the cart to the `cart` key
 once), and the notification it shows.
 */
module CartEngine {
  import opened ShopModel

  datatype Notice =
    | Quiet
    | ProductNotFound
    | QuantityIncreased(name: string)
    | AddedToCart(name: string)
    | RemovedFromCart(name: string)
    | CartEmptied
    // the notifications of `checkout`
    | CartIsEmptyError
    | NameRequiredError
    | PhoneRequiredError
    | AddressRequiredError
    | OrderSent

  datatype Outcome = Outcome(cart: Cart, saves: nat, notice: Notice)

  /** `after` is `before` with the quantity of the line(s) carrying `id`
      shifted by `delta`, and every other line, and the order, untouched. */
  predicate QuantityShifted(before: Cart, after: Cart, id: int, delta: int) {
    && |after| == |before|
    && forall k :: 0 <= k < |before| ==>
         after[k] == (if before[k].id == id then before[k].(quantity := before[k].quantity + delta) else before[k])
  }

  /** `after` is `before` with the quantity of line `i` alone shifted by
      `delta`: every other line, and the order, untouched. Unlike
      `QuantityShifted` this needs no assumption about the ids. */
  predicate ShiftedAt(before: Cart, after: Cart, i: nat, delta: int) {
    && i < |before| == |after|
    && after[i] == before[i].(quantity := before[i].quantity + delta)
    && forall k :: 0 <= k < |before| && k != i ==> after[k] == before[k]
  }

  /** The cart with the quantity of line `i` shifted by `delta`. */
  function Shift(cart: Cart, i: nat, delta: int): (r: Cart)
    requires i < |cart|
    ensures ShiftedAt(cart, r, i, delta)
    ensures delta != 0 ==> r != cart
  {
    assert delta != 0 ==> cart[i := cart[i].(quantity := cart[i].quantity + delta)][i] != cart[i];
    cart[i := cart[i].(quantity := cart[i].quantity + delta)]
  }

  /** Shifting the line `find` returns in a cart with unique ids shifts exactly
      the line with that id, and the ids stay unique. */
  lemma ShiftFound(cart: Cart, id: int, delta: int)
    requires UniqueIds(cart) && HasLine(cart, id)
    ensures QuantityShifted(cart, Shift(cart, FindLine(cart, id).value, delta), id, delta)
    ensures UniqueIds(Shift(cart, FindLine(cart, id).value, delta))
  {
  }

  lemma ShiftSums(cart: Cart, i: nat, delta: int)
    requires i < |cart|
    ensures ItemCount(Shift(cart, i, delta)) == ItemCount(cart) + delta
    ensures Total(Shift(cart, i, delta)) == Total(cart) + cart[i].price * delta
  {
    var l := cart[i].(quantity := cart[i].quantity + delta);
    SumUpdate(cart, i, l, Quantity);
    SumUpdate(cart, i, l, Subtotal);
    assert Subtotal(l) == Subtotal(cart[i]) + cart[i].price * delta by {
      assert Subtotal(l) == cart[i].price * (cart[i].quantity + delta);
    }
  }

  /* ---------------------------------------------------------------------
     removeFromCart
     --------------------------------------------------------------------- */

  /** What `cart.splice(i, 1)` does to the length and the two sums. */
  lemma SpliceSums(cart: Cart, i: nat)
    requires i < |cart|
    ensures |cart[..i] + cart[i + 1..]| == |cart| - 1
    ensures ItemCount(cart[..i] + cart[i + 1..]) == ItemCount(cart) - cart[i].quantity
    ensures Total(cart[..i] + cart[i + 1..]) == Total(cart) - Subtotal(cart[i])
  {
    SumRemove(cart, i, Quantity);
    SumRemove(cart, i, Subtotal);
  }

  /** With unique ids, `cart.splice(i, 1)` drops exactly the lines carrying
      the removed id. */
  lemma SpliceIsWithout(cart: Cart, i: nat)
    requires i < |cart| && UniqueIds(cart)
    ensures cart[..i] + cart[i + 1..] == Without(cart, cart[i].id)
    ensures !HasLine(cart[..i] + cart[i + 1..], cart[i].id)
  {
    WithoutIsSplice(cart, i);
    WithoutMembers(cart, cart[i].id);
    var rest := cart[..i] + cart[i + 1..];
    assert forall k :: 0 <= k < |rest| ==> rest[k] in rest && rest[k].id != cart[i].id;
  }

  /** `cart.splice(i, 1)` keeps the cart invariants. */
  lemma SpliceKeepsValid(cart: Cart, i: nat)
    requires i < |cart| && ValidCart(cart)
    ensures ValidCart(cart[..i] + cart[i + 1..])
  {
    var rest := cart[..i] + cart[i + 1..];
    forall a, b | 0 <= a < b < |rest| ensures rest[a].id != rest[b].id {
      var a', b' := if a < i then a else a + 1, if b < i then b else b + 1;
      assert rest[a] == cart[a'] && rest[b] == cart[b'];
    }
    forall a | 0 <= a < |rest| ensures rest[a].quantity >= 1 {
      assert rest[a] == cart[if a < i then a else a + 1];
    }
  }

  function RemoveFromCart(cart: Cart, id: int): (r: Outcome)
    // absent id: no change, no write, no notification
    ensures !HasLine(cart, id) <==> r.saves == 0
    ensures !HasLine(cart, id) ==> r.cart == cart && r.notice == Quiet
    ensures r.saves == 0 <==> r.cart == cart
    // present id: one line fewer, one write, the removed line is named
    ensures HasLine(cart, id) ==>
      && |r.cart| == |cart| - 1
      && r.saves == 1
      && r.notice == RemovedFromCart(LineWith(cart, id).name)
      && ItemCount(r.cart) == ItemCount(cart) - LineWith(cart, id).quantity
      && Total(r.cart) == Total(cart) - Subtotal(LineWith(cart, id))
    // with unique ids the result is the cart filtered by id, order kept
    ensures UniqueIds(cart) ==> r.cart == Without(cart, id) && !HasLine(r.cart, id)
    ensures ValidCart(cart) ==> ValidCart(r.cart)
  {
    match FindLine(cart, id)
    case None =>
      WithoutAbsent(cart, id);
      Outcome(cart, 0, Quiet)
    case Some(i) =>
      SpliceSums(cart, i);
      var rest := cart[..i] + cart[i + 1..];
      assert UniqueIds(cart) ==> rest == Without(cart, id) && !HasLine(rest, id) by {
        if UniqueIds(cart) {
          SpliceIsWithout(cart, i);
        }
      }
      assert ValidCart(cart) ==> ValidCart(rest) by {
        if ValidCart(cart) {
          SpliceKeepsValid(cart, i);
        }
      }
      Outcome(rest, 1, RemovedFromCart(cart[i].name))
  }

  /* ---------------------------------------------------------------------
     addToCart
     --------------------------------------------------------------------- */

  function AddToCart(catalog: seq<Product>, cart: Cart, id: int): (r: Outcome)
    // unknown product: no change, no write, an error notification
    ensures !InCatalog(catalog, id) <==> r.saves == 0
    ensures !InCatalog(catalog, id) ==> r.cart == cart && r.notice == ProductNotFound
    ensures r.saves == 0 <==> r.cart == cart
    // known product: one write, and the badge rises by exactly one
    ensures InCatalog(catalog, id) ==> r.saves == 1 && ItemCount(r.cart) == ItemCount(cart) + 1
    // already in the cart: only that line's quantity rises; its stored price is what the total gains
    ensures InCatalog(catalog, id) && HasLine(cart, id) ==>
      && |r.cart| == |cart|
      && Total(r.cart) == Total(cart) + LineWith(cart, id).price
      && r.notice == QuantityIncreased(FindProduct(catalog, id).value.name)
    ensures InCatalog(catalog, id) && HasLine(cart, id) ==> ShiftedAt(cart, r.cart, FindLine(cart, id).value, 1)
    ensures InCatalog(catalog, id) && HasLine(cart, id) && UniqueIds(cart) ==> QuantityShifted(cart, r.cart, id, 1)
    // not yet in the cart: a copy of the product with quantity 1 goes at the end
    ensures InCatalog(catalog, id) && !HasLine(cart, id) ==>
      && r.cart == cart + [LineFor(FindProduct(catalog, id).value)]
      && Total(r.cart) == Total(cart) + FindProduct(catalog, id).value.price
      && r.notice == AddedToCart(FindProduct(catalog, id).value.name)
    ensures ValidCart(cart) ==> ValidCart(r.cart)
  {
    match FindProduct(catalog, id)
    case None => Outcome(cart, 0, ProductNotFound)
    case Some(p) =>
      match FindLine(cart, p.id)
      case Some(i) =>
        ShiftSums(cart, i, 1);
        assert UniqueIds(cart) ==> QuantityShifted(cart, Shift(cart, i, 1), id, 1) && UniqueIds(Shift(cart, i, 1)) by {
          if UniqueIds(cart) {
            ShiftFound(cart, id, 1);
          }
        }
        Outcome(Shift(cart, i, 1), 1, QuantityIncreased(p.name))
      case None =>
        var l := LineFor(p);
        SumAppend(cart, [l], Quantity);
        SumAppend(cart, [l], Subtotal);
        assert SumOf([l], Quantity) == 1 && SumOf([l], Subtotal) == p.price;
        Outcome(cart + [l], 1, AddedToCart(p.name))
  }

  /* ---------------------------------------------------------------------
     increaseQuantity
     --------------------------------------------------------------------- */

  function IncreaseQuantity(cart: Cart, id: int): (r: Outcome)
    ensures !HasLine(cart, id) <==> r.saves == 0
    ensures !HasLine(cart, id) ==> r.cart == cart
    ensures r.saves == 0 <==> r.cart == cart
    ensures HasLine(cart, id) ==>
      && r.saves == 1
      && |r.cart| == |cart|
      && ItemCount(r.cart) == ItemCount(cart) + 1
      && Total(r.cart) == Total(cart) + LineWith(cart, id).price
    // the first line with the id gains one unit, on any cart
    ensures HasLine(cart, id) ==> ShiftedAt(cart, r.cart, FindLine(cart, id).value, 1)
    ensures UniqueIds(cart) && HasLine(cart, id) ==> QuantityShifted(cart, r.cart, id, 1)
    ensures ValidCart(cart) ==> ValidCart(r.cart)
    ensures r.notice == Quiet
  {
    match FindLine(cart, id)
    case None => Outcome(cart, 0, Quiet)
    case Some(i) =>
      ShiftSums(cart, i, 1);
      assert UniqueIds(cart) ==> QuantityShifted(cart, Shift(cart, i, 1), id, 1) && UniqueIds(Shift(cart, i, 1)) by {
        if UniqueIds(cart) {
          ShiftFound(cart, id, 1);
        }
      }
      Outcome(Shift(cart, i, 1), 1, Quiet)
  }

  /* ---------------------------------------------------------------------
     decreaseQuantity
     --------------------------------------------------------------------- */

  function DecreaseQuantity(cart: Cart, id: int): (r: Outcome)
    ensures !HasLine(cart, id) <==> r.saves == 0
    ensures !HasLine(cart, id) ==> r.cart == cart && r.notice == Quiet
    ensures r.saves == 0 <==> r.cart == cart
    // quantity above 1: it drops by one and nothing else changes
    ensures HasLine(cart, id) && LineWith(cart, id).quantity > 1 ==>
      && r.saves == 1
      && |r.cart| == |cart|
      && ItemCount(r.cart) == ItemCount(cart) - 1
      && r.notice == Quiet
    ensures HasLine(cart, id) && LineWith(cart, id).quantity > 1 ==>
      ShiftedAt(cart, r.cart, FindLine(cart, id).value, -1)
    ensures UniqueIds(cart) && HasLine(cart, id) && LineWith(cart, id).quantity > 1 ==>
      QuantityShifted(cart, r.cart, id, -1)
    // quantity 1 (or less): the line goes, exactly as removeFromCart would do it
    ensures HasLine(cart, id) && LineWith(cart, id).quantity <= 1 ==> r == RemoveFromCart(cart, id)
    ensures ValidCart(cart) && HasLine(cart, id) ==> ItemCount(r.cart) == ItemCount(cart) - 1
    ensures ValidCart(cart) ==> ValidCart(r.cart)
  {
    match FindLine(cart, id)
    case None => Outcome(cart, 0, Quiet)
    case Some(i) =>
      if cart[i].quantity > 1 then
        ShiftSums(cart, i, -1);
        assert UniqueIds(cart) ==> QuantityShifted(cart, Shift(cart, i, -1), id, -1) && UniqueIds(Shift(cart, i, -1)) by {
          if UniqueIds(cart) {
            ShiftFound(cart, id, -1);
          }
        }
        Outcome(Shift(cart, i, -1), 1, Quiet)
      else
        RemoveFromCart(cart, id)
  }

  /* ---------------------------------------------------------------------
     clearCart
     --------------------------------------------------------------------- */

  function ClearCart(cart: Cart): (r: Outcome)
    ensures r.cart == []
    ensures |cart| == 0 <==> r.saves == 0
    ensures r.saves == 0 <==> r.cart == cart
    ensures |cart| > 0 ==> r.saves == 1 && r.notice == CartEmptied
    ensures |cart| == 0 ==> r.notice == Quiet
  {
    if |cart| == 0 then Outcome(cart, 0, Quiet)
    else Outcome([], 1, CartEmptied)
  }
}

=== FILE: cart_laws.dfy ===
/**
 Laws relating the cart mutations to each other: which operation undoes
 which, what repeated adds and decreases amount to.
 */
module CartLaws {
  import opened ShopModel
  import opened CartEngine

  /** Two quantity shifts of the same id compose into one. */
  lemma ShiftsCompose(a: Cart, b: Cart, c: Cart, id: int, d1: int, d2: int)
    requires QuantityShifted(a, b, id, d1) && QuantityShifted(b, c, id, d2)
    ensures QuantityShifted(a, c, id, d1 + d2)
  {
    forall k | 0 <= k < |a|
      ensures c[k] == (if a[k].id == id then a[k].(quantity := a[k].quantity + (d1 + d2)) else a[k])
    {
      assert b[k].id == a[k].id;
    }
  }

  /** A shift by zero changes nothing. */
  lemma ShiftByZero(a: Cart, b: Cart, id: int)
    requires QuantityShifted(a, b, id, 0)
    ensures b == a
  {
    assert forall k :: 0 <= k < |a| ==> b[k] == a[k];
  }

  /** A shift keeps every id and changes only the matching quantities. */
  lemma ShiftKeepsIds(a: Cart, b: Cart, id: int, delta: int, k: nat)
    requires QuantityShifted(a, b, id, delta) && k < |a|
    ensures b[k].id == a[k].id
    ensures b[k].quantity == if a[k].id == id then a[k].quantity + delta else a[k].quantity
  {
  }

  /** Shifting the quantity of `id` does not change the cart without `id`. */
  lemma {:induction false} WithoutIgnoresShift(a: Cart, b: Cart, id: int, delta: int)
    requires QuantityShifted(a, b, id, delta)
    ensures Without(b, id) == Without(a, id)
  {
    if |a| > 0 {
      assert QuantityShifted(a[1..], b[1..], id, delta) by {
        forall k | 0 <= k < |a[1..]|
          ensures b[1..][k] == (if a[1..][k].id == id then a[1..][k].(quantity := a[1..][k].quantity + delta) else a[1..][k])
        {
          assert a[1..][k] == a[k + 1] && b[1..][k] == b[k + 1];
        }
      }
      WithoutIgnoresShift(a[1..], b[1..], id, delta);
      assert b[0].id == a[0].id;
    }
  }

  /** `increaseQuantity` followed by `decreaseQuantity` restores the cart. */
  lemma IncreaseThenDecrease(cart: Cart, id: int)
    requires ValidCart(cart) && HasLine(cart, id)
    ensures DecreaseQuantity(IncreaseQuantity(cart, id).cart, id).cart == cart
  {
    var k := FindLine(cart, id).value;
    var up := IncreaseQuantity(cart, id).cart;
    ShiftKeepsIds(cart, up, id, 1, k);
    LineWithUnique(up, id, k);
    var down := DecreaseQuantity(up, id).cart;
    ShiftsCompose(cart, up, down, id, 1, -1);
    ShiftByZero(cart, down, id);
  }

  /** `decreaseQuantity` on a line above 1 is undone by `increaseQuantity`. */
  lemma DecreaseThenIncrease(cart: Cart, id: int)
    requires ValidCart(cart) && HasLine(cart, id) && LineWith(cart, id).quantity > 1
    ensures IncreaseQuantity(DecreaseQuantity(cart, id).cart, id).cart == cart
  {
    var k := FindLine(cart, id).value;
    var down := DecreaseQuantity(cart, id).cart;
    ShiftKeepsIds(cart, down, id, -1, k);
    LineWithUnique(down, id, k);
    var up := IncreaseQuantity(down, id).cart;
    ShiftsCompose(cart, down, up, id, -1, 1);
    ShiftByZero(cart, up, id);
  }

  /** Adding a product that is not in the cart and then removing it restores the cart. */
  lemma AddNewThenRemove(catalog: seq<Product>, cart: Cart, id: int)
    requires InCatalog(catalog, id) && !HasLine(cart, id)
    ensures RemoveFromCart(AddToCart(catalog, cart, id).cart, id).cart == cart
  {
    var added := AddToCart(catalog, cart, id).cart;
    assert FindLine(added, id) == Some(|cart|) by {
      assert added[|cart|].id == id;
      assert forall k :: 0 <= k < |cart| ==> added[k] == cart[k];
    }
    assert added[..|cart|] == cart;
  }

  /** Adding the same new product twice yields one line with quantity 2 at the end. */
  lemma AddTwice(catalog: seq<Product>, cart: Cart, id: int)
    requires InCatalog(catalog, id) && !HasLine(cart, id)
    ensures
      var twice := AddToCart(catalog, AddToCart(catalog, cart, id).cart, id).cart;
      && twice == cart + [LineFor(FindProduct(catalog, id).value).(quantity := 2)]
      && ItemCount(twice) == ItemCount(cart) + 2
  {
    var p := FindProduct(catalog, id).value;
    var once := AddToCart(catalog, cart, id).cart;
    assert once == cart + [LineFor(p)];
    assert FindLine(once, id) == Some(|cart|) by {
      assert once[|cart|].id == id;
      assert forall k :: 0 <= k < |cart| ==> once[k] == cart[k];
    }
  }

  /** `decreaseQuantity` applied `n` times. */
  function DecreaseTimes(cart: Cart, id: int, n: nat): Cart
    decreases n
  {
    if n == 0 then cart else DecreaseTimes(DecreaseQuantity(cart, id).cart, id, n - 1)
  }

  /** One decrease of a line above 1 keeps the cart valid, lowers that line
      by one, and leaves the cart without the id as it was. */
  lemma DecreaseOnce(cart: Cart, id: int, k: nat)
    requires ValidCart(cart) && k < |cart| && cart[k].id == id && cart[k].quantity > 1
    ensures var next := DecreaseQuantity(cart, id).cart;
      && ValidCart(next) && k < |next| && next[k].id == id && next[k].quantity == cart[k].quantity - 1
      && Without(next, id) == Without(cart, id)
  {
    LineWithUnique(cart, id, k);
    var next := DecreaseQuantity(cart, id).cart;
    assert QuantityShifted(cart, next, id, -1);
    ShiftKeepsIds(cart, next, id, -1, k);
    WithoutIgnoresShift(cart, next, id, -1);
  }

  /** Decreasing a line as many times as its quantity removes exactly that line. */
  lemma {:induction false} DecreaseToZeroRemoves(cart: Cart, id: int, k: nat)
    requires ValidCart(cart) && k < |cart| && cart[k].id == id
    ensures DecreaseTimes(cart, id, cart[k].quantity) == Without(cart, id)
    ensures !HasLine(DecreaseTimes(cart, id, cart[k].quantity), id)
    decreases cart[k].quantity
  {
    var q := cart[k].quantity;
    var next := DecreaseQuantity(cart, id).cart;
    assert DecreaseTimes(cart, id, q) == DecreaseTimes(next, id, q - 1);
    if q == 1 {
      LineWithUnique(cart, id, k);
      assert next == RemoveFromCart(cart, id).cart;
    } else {
      DecreaseOnce(cart, id, k);
      DecreaseToZeroRemoves(next, id, k);
    }
  }
}

=== FILE: catalog_view.dfy ===
/**
 The product grid's view of the catalog: `filterAndSortProducts` filters the
 catalog by a case-insensitive substring of the product name and then sorts
 the survivors by the chosen option. The catalog itself is an input and is
 never changed.

 Two browser facilities are parameters: `lower` stands for the per-character
 effect of `toLowerCase`, and `nameLe(a, b)` for "`a.localeCompare(b)` is not
 positive". The name orderings are proved only for a `nameLe` that is a total
 preorder.
 */
module CatalogView {
  import opened ShopModel

  /** The values of the sort select; every value the source does not name
      falls into its `default` branch, which `Default` stands for. */
  datatype SortOption = Default | PriceAsc | PriceDesc | NameAsc | NameDesc

  /* ---------------------------------------------------------------------
     Filtering
     --------------------------------------------------------------------- */

  function LowerCase(s: string, lower: char -> char): string {
    seq(|s|, i requires 0 <= i < |s| => lower(s[i]))
  }

  /** `text.includes(pattern)`: the pattern occurs at some position. */
  predicate Includes(text: string, pattern: string) {
    exists i :: 0 <= i <= |text| && pattern <= text[i..]
  }

  /** The search test of one product: its lower-cased name contains the lower-cased query. */
  predicate Matches(p: Product, query: string, lower: char -> char) {
    Includes(LowerCase(p.name, lower), LowerCase(query, lower))
  }

  /** `a` can be obtained from `b` by deleting elements: the order of `b` is kept. */
  predicate SubsequenceOf(a: seq<Product>, b: seq<Product>)
    decreases |b|
  {
    || |a| == 0
    || (&& |b| > 0
        && ((a[0] == b[0] && SubsequenceOf(a[1..], b[1..])) || SubsequenceOf(a, b[1..])))
  }

  lemma {:induction false} SubsequenceOfSelf(s: seq<Product>)
    ensures SubsequenceOf(s, s)
  {
    if |s| > 0 {
      SubsequenceOfSelf(s[1..]);
    }
  }

  /** `products.filter((product) => product.name.toLowerCase().includes(query))`. */
  function Select(products: seq<Product>, query: string, lower: char -> char): (r: seq<Product>)
    ensures forall p :: p in r <==> p in products && Matches(p, query, lower)
    // every matching occurrence is kept, each non-matching one dropped
    ensures forall p :: multiset(r)[p] == if Matches(p, query, lower) then multiset(products)[p] else 0
    ensures SubsequenceOf(r, products)
  {
    if |products| == 0 then []
    else
      var rest := Select(products[1..], query, lower);
      assert products == [products[0]] + products[1..];
      if Matches(products[0], query, lower) then
        assert ([products[0]] + rest)[1..] == rest;
        [products[0]] + rest
      else
        rest
  }

  /** The filter step: an empty query keeps the whole catalog. */
  function FilterProducts(products: seq<Product>, query: string, lower: char -> char): (r: seq<Product>)
    ensures query == [] ==> r == products
    ensures forall p :: p in r <==> p in products && (query == [] || Matches(p, query, lower))
    ensures forall p :: multiset(r)[p] == if query == [] || Matches(p, query, lower) then multiset(products)[p] else 0
    ensures SubsequenceOf(r, products)
  {
    if query == [] then
      SubsequenceOfSelf(products);
      products
    else
      Select(products, query, lower)
  }

  /* ---------------------------------------------------------------------
     Sorting
     --------------------------------------------------------------------- */

  /** `le(a, b)`: `a` may be placed before `b`. */
  ghost predicate TotalPreorder<T(!new)>(le: (T, T) -> bool) {
    && (forall a, b :: le(a, b) || le(b, a))
    && (forall a, b, c :: le(a, b) && le(b, c) ==> le(a, c))
  }

  predicate SortedBy(s: seq<Product>, le: (Product, Product) -> bool) {
    forall i, j :: 0 <= i < j < |s| ==> le(s[i], s[j])
  }

  /** Places `x` after every element of `s` that may precede it. */
  function Insert(s: seq<Product>, x: Product, le: (Product, Product) -> bool): (r: seq<Product>)
    ensures multiset(r) == multiset(s) + multiset{x}
  {
    if |s| == 0 then [x]
    else if le(s[|s| - 1], x) then s + [x]
    else
      assert s == s[..|s| - 1] + [s[|s| - 1]];
      Insert(s[..|s| - 1], x, le) + [s[|s| - 1]]
  }

  /** An insertion sort: the stable sort `Array.prototype.sort` performs. */
  function Sort(s: seq<Product>, le: (Product, Product) -> bool): (r: seq<Product>)
    ensures multiset(r) == multiset(s)
  {
    if |s| == 0 then []
    else
      assert s == s[..|s| - 1] + [s[|s| - 1]];
      Insert(Sort(s[..|s| - 1], le), s[|s| - 1], le)
  }

  lemma {:induction false} InsertKeepsSorted(s: seq<Product>, x: Product, le: (Product, Product) -> bool)
    requires TotalPreorder(le) && SortedBy(s, le)
    ensures SortedBy(Insert(s, x, le), le)
  {
    if |s| > 0 && !le(s[|s| - 1], x) {
      var init, last := s[..|s| - 1], s[|s| - 1];
      assert SortedBy(init, le);
      InsertKeepsSorted(init, x, le);
      var r' := Insert(init, x, le);
      assert le(x, last);
      forall y | y in r' ensures le(y, last) {
        assert y in multiset(r');
        if y != x {
          assert y in init;
        }
      }
      var r := r' + [last];
      forall i, j | 0 <= i < j < |r| ensures le(r[i], r[j]) {
        if j < |r'| {
          assert r[i] == r'[i] && r[j] == r'[j];
        } else {
          assert r[i] in r';
        }
      }
    }
  }

  lemma {:induction false} SortSorts(s: seq<Product>, le: (Product, Product) -> bool)
    requires TotalPreorder(le)
    ensures SortedBy(Sort(s, le), le)
  {
    if |s| > 0 {
      SortSorts(s[..|s| - 1], le);
      InsertKeepsSorted(Sort(s[..|s| - 1], le), s[|s| - 1], le);
    }
  }

  /** `(a, b) => a.price - b.price` */
  function PriceAscending(a: Product, b: Product): bool { a.price <= b.price }

  /** `(a, b) => b.price - a.price` */
  function PriceDescending(a: Product, b: Product): bool { b.price <= a.price }

  /** `(a, b) => a.name.localeCompare(b.name)` */
  function NameAscending(nameLe: (string, string) -> bool): (Product, Product) -> bool {
    (a: Product, b: Product) => nameLe(a.name, b.name)
  }

  /** `(a, b) => b.name.localeCompare(a.name)` */
  function NameDescending(nameLe: (string, string) -> bool): (Product, Product) -> bool {
    (a: Product, b: Product) => nameLe(b.name, a.name)
  }

  lemma PriceOrdersArePreorders()
    ensures TotalPreorder(PriceAscending) && TotalPreorder(PriceDescending)
  {
  }

  lemma NameOrdersArePreorders(nameLe: (string, string) -> bool)
    requires TotalPreorder(nameLe)
    ensures TotalPreorder(NameAscending(nameLe)) && TotalPreorder(NameDescending(nameLe))
  {
    var up, down := NameAscending(nameLe), NameDescending(nameLe);
    forall a, b ensures up(a, b) || up(b, a) {
      assert nameLe(a.name, b.name) || nameLe(b.name, a.name);
    }
    forall a, b, c | up(a, b) && up(b, c) ensures up(a, c) {
      assert nameLe(a.name, b.name) && nameLe(b.name, c.name);
    }
    forall a, b ensures down(a, b) || down(b, a) {
      assert nameLe(a.name, b.name) || nameLe(b.name, a.name);
    }
    forall a, b, c | down(a, b) && down(b, c) ensures down(a, c) {
      assert nameLe(c.name, b.name) && nameLe(b.name, a.name);
    }
  }

  /** The sort step of `filterAndSortProducts`. */
  function SortView(view: seq<Product>, option: SortOption, nameLe: (string, string) -> bool): (r: seq<Product>)
    ensures multiset(r) == multiset(view)
    ensures option == Default ==> r == view
    ensures option == PriceAsc ==> forall i, j :: 0 <= i < j < |r| ==> r[i].price <= r[j].price
    ensures option == PriceDesc ==> forall i, j :: 0 <= i < j < |r| ==> r[i].price >= r[j].price
    ensures option == NameAsc && TotalPreorder(nameLe) ==>
      forall i, j :: 0 <= i < j < |r| ==> nameLe(r[i].name, r[j].name)
    ensures option == NameDesc && TotalPreorder(nameLe) ==>
      forall i, j :: 0 <= i < j < |r| ==> nameLe(r[j].name, r[i].name)
  {
    PriceOrdersArePreorders();
    match option
    case Default => view
    case PriceAsc =>
      SortSorts(view, PriceAscending);
      Sort(view, PriceAscending)
    case PriceDesc =>
      SortSorts(view, PriceDescending);
      Sort(view, PriceDescending)
    case NameAsc =>
      var r := Sort(view, NameAscending(nameLe));
      assert TotalPreorder(nameLe) ==> SortedBy(r, NameAscending(nameLe)) by {
        if TotalPreorder(nameLe) {
          NameOrdersArePreorders(nameLe);
          SortSorts(view, NameAscending(nameLe));
        }
      }
      r
    case NameDesc =>
      var r := Sort(view, NameDescending(nameLe));
      assert TotalPreorder(nameLe) ==> SortedBy(r, NameDescending(nameLe)) by {
        if TotalPreorder(nameLe) {
          NameOrdersArePreorders(nameLe);
          SortSorts(view, NameDescending(nameLe));
        }
      }
      r
  }

  /* ---------------------------------------------------------------------
     Stability: products the comparator ranks equal keep their order
     --------------------------------------------------------------------- */

  predicate Tied(a: Product, b: Product, le: (Product, Product) -> bool) {
    le(a, b) && le(b, a)
  }

  /** The elements of `s` tied with `z`, in their order in `s`. */
  function TiedWith(s: seq<Product>, z: Product, le: (Product, Product) -> bool): seq<Product> {
    if |s| == 0 then []
    else TiedWith(s[..|s| - 1], z, le) + (if Tied(z, s[|s| - 1], le) then [s[|s| - 1]] else [])
  }

  lemma TiedWithSnoc(s: seq<Product>, x: Product, z: Product, le: (Product, Product) -> bool)
    ensures TiedWith(s + [x], z, le) == TiedWith(s, z, le) + (if Tied(z, x, le) then [x] else [])
  {
    assert (s + [x])[..|s|] == s;
  }

  lemma {:induction false} InsertIsStable(s: seq<Product>, x: Product, z: Product, le: (Product, Product) -> bool)
    requires TotalPreorder(le)
    ensures TiedWith(Insert(s, x, le), z, le) == TiedWith(s, z, le) + (if Tied(z, x, le) then [x] else [])
  {
    if |s| == 0 {
      TiedWithSnoc([], x, z, le);
    } else if le(s[|s| - 1], x) {
      TiedWithSnoc(s, x, z, le);
    } else {
      var init, last := s[..|s| - 1], s[|s| - 1];
      InsertIsStable(init, x, z, le);
      TiedWithSnoc(Insert(init, x, le), last, z, le);
      // x and last cannot both be tied with z, or last could precede x
      assert !(Tied(z, x, le) && Tied(z, last, le));
    }
  }

  /** `Sort` is stable: for every product `z`, the products tied with `z`
      come out in their input order. */
  lemma {:induction false} SortIsStable(s: seq<Product>, z: Product, le: (Product, Product) -> bool)
    requires TotalPreorder(le)
    ensures TiedWith(Sort(s, le), z, le) == TiedWith(s, z, le)
  {
    if |s| > 0 {
      SortIsStable(s[..|s| - 1], z, le);
      InsertIsStable(Sort(s[..|s| - 1], le), s[|s| - 1], z, le);
    }
  }

  /** The comparator each sort option hands to `sort`; `default` ties everything. */
  function OrderOf(option: SortOption, nameLe: (string, string) -> bool): (Product, Product) -> bool {
    match option
    case Default => (a: Product, b: Product) => true
    case PriceAsc => PriceAscending
    case PriceDesc => PriceDescending
    case NameAsc => NameAscending(nameLe)
    case NameDesc => NameDescending(nameLe)
  }

  /** Every sort option keeps products it ranks equal in catalog order. */
  lemma SortViewIsStable(view: seq<Product>, option: SortOption, nameLe: (string, string) -> bool, z: Product)
    requires option.NameAsc? || option.NameDesc? ==> TotalPreorder(nameLe)
    ensures TiedWith(SortView(view, option, nameLe), z, OrderOf(option, nameLe))
         == TiedWith(view, z, OrderOf(option, nameLe))
  {
    PriceOrdersArePreorders();
    match option
    case Default =>
    case PriceAsc => SortIsStable(view, z, PriceAscending);
    case PriceDesc => SortIsStable(view, z, PriceDescending);
    case NameAsc =>
      NameOrdersArePreorders(nameLe);
      SortIsStable(view, z, NameAscending(nameLe));
    case NameDesc =>
      NameOrdersArePreorders(nameLe);
      SortIsStable(view, z, NameDescending(nameLe));
  }

  /** `filterAndSortProducts`: the view the product grid renders. */
  function FilterAndSortProducts(
    products: seq<Product>, query: string, option: SortOption,
    lower: char -> char, nameLe: (string, string) -> bool): (r: seq<Product>)
    // exactly the matching products, each as often as in the catalog
    ensures multiset(r) == multiset(FilterProducts(products, query, lower))
    ensures forall p :: p in r <==> p in products && (query == [] || Matches(p, query, lower))
    // `default` keeps catalog order; with an empty query it is the catalog itself
    ensures option == Default ==> SubsequenceOf(r, products)
    ensures query == [] && option == Default ==> r == products
    ensures query == [] ==> multiset(r) == multiset(products)
    ensures option == PriceAsc ==> forall i, j :: 0 <= i < j < |r| ==> r[i].price <= r[j].price
    ensures option == PriceDesc ==> forall i, j :: 0 <= i < j < |r| ==> r[i].price >= r[j].price
    ensures option == NameAsc && TotalPreorder(nameLe) ==>
      forall i, j :: 0 <= i < j < |r| ==> nameLe(r[i].name, r[j].name)
    ensures option == NameDesc && TotalPreorder(nameLe) ==>
      forall i, j :: 0 <= i < j < |r| ==> nameLe(r[j].name, r[i].name)
  {
    var filtered := FilterProducts(products, query, lower);
    var r := SortView(filtered, option, nameLe);
    assert forall p :: p in r <==> p in filtered by {
      forall p ensures p in r <==> p in filtered {
        assert p in r <==> p in multiset(r);
        assert p in filtered <==> p in multiset(filtered);
      }
    }
    r
  }
}

=== FILE: checkout.dfy ===
/**
 `checkout`: rejects an empty cart and missing customer details, otherwise
 builds the order summary that is handed to the chat application and clears
 the cart. The three `prompt` answers are inputs; an empty string stands for
 both a cancelled prompt (`null`) and an empty answer, which the source treats
 alike. The message text, its URL encoding and the phone number it is sent to
 are transport and are not modelled.
 */
module CheckoutFlow {
  import opened ShopModel
  import opened CartEngine

  datatype Customer = Customer(name: string, phone: string, address: string)

  /** One line of the summary: `${item.name} (x${item.quantity}) - R$ ${itemTotal}`. */
  datatype OrderLine = OrderLine(name: string, quantity: int, subtotal: int)

  datatype Order = Order(customer: Customer, lines: seq<OrderLine>, total: int)

  datatype Rejection = EmptyCart | NameRequired | PhoneRequired | AddressRequired

  datatype CheckoutResult = Rejected(reason: Rejection) | HandedOff(order: Order)

  /** The result of a checkout, what it did to the cart, and every
      notification it showed, in order. */
  datatype Attempt = Attempt(result: CheckoutResult, after: Outcome, notices: seq<Notice>)

  /** The error notification each rejection shows. */
  function RejectionNotice(reason: Rejection): Notice {
    match reason
    case EmptyCart => CartIsEmptyError
    case NameRequired => NameRequiredError
    case PhoneRequired => PhoneRequiredError
    case AddressRequired => AddressRequiredError
  }

  /** The per-line part of the summary, in cart order. */
  function OrderLines(cart: Cart): (r: seq<OrderLine>)
    ensures |r| == |cart|
    ensures forall k :: 0 <= k < |cart| ==>
      r[k].name == cart[k].name && r[k].quantity == cart[k].quantity && r[k].subtotal == Subtotal(cart[k])
  {
    if |cart| == 0 then [] else [OrderLine(cart[0].name, cart[0].quantity, Subtotal(cart[0]))] + OrderLines(cart[1..])
  }

  function SubtotalSum(lines: seq<OrderLine>): int {
    if |lines| == 0 then 0 else lines[0].subtotal + SubtotalSum(lines[1..])
  }

  /** The grand total of the summary is the sum of its line subtotals. */
  lemma {:induction false} SummaryAddsUp(cart: Cart)
    ensures SubtotalSum(OrderLines(cart)) == Total(cart)
  {
    if |cart| > 0 {
      SummaryAddsUp(cart[1..]);
    }
  }

  function Checkout(cart: Cart, customer: Customer): (a: Attempt)
    // a hand-off happens exactly when the cart has lines and all three answers are given
    ensures a.result.HandedOff? <==>
      |cart| > 0 && customer.name != [] && customer.phone != [] && customer.address != []
    // the checks run in order: cart, then name, then phone, then address
    ensures |cart| == 0 ==> a.result == Rejected(EmptyCart)
    ensures |cart| > 0 && customer.name == [] ==> a.result == Rejected(NameRequired)
    ensures |cart| > 0 && customer.name != [] && customer.phone == [] ==> a.result == Rejected(PhoneRequired)
    ensures |cart| > 0 && customer.name != [] && customer.phone != [] && customer.address == [] ==>
      a.result == Rejected(AddressRequired)
    // a rejection leaves the cart alone, writes nothing and shows its one error
    ensures a.result.Rejected? ==>
      && a.after == Outcome(cart, 0, RejectionNotice(a.result.reason))
      && a.notices == [RejectionNotice(a.result.reason)]
    // a hand-off carries the customer and exactly the cart's lines and total,
    // then empties the cart with one write
    ensures a.result.HandedOff? ==>
      && a.result.order.customer == customer
      && a.result.order.lines == OrderLines(cart)
      && |a.result.order.lines| == |cart|
      && a.result.order.total == Total(cart)
      && a.result.order.total == SubtotalSum(a.result.order.lines)
      && a.after == ClearCart(cart)
      && a.after.cart == []
      && a.after.saves == 1
      && a.notices == [CartEmptied, OrderSent]
  {
    if |cart| == 0 then Refuse(cart, EmptyCart)
    else if customer.name == [] then Refuse(cart, NameRequired)
    else if customer.phone == [] then Refuse(cart, PhoneRequired)
    else if customer.address == [] then Refuse(cart, AddressRequired)
    else
      var lines := OrderLines(cart);
      SummaryAddsUp(cart);
      var cleared := ClearCart(cart);
      Attempt(HandedOff(Order(customer, lines, Total(cart))), cleared, [cleared.notice, OrderSent])
  }

  /** A rejected checkout: the cart stays, nothing is written, one error is shown. */
  function Refuse(cart: Cart, reason: Rejection): Attempt {
    var n := RejectionNotice(reason);
    Attempt(Rejected(reason), Outcome(cart, 0, n), [n])
  }
}

=== FILE: model.dfy ===
/**
 The data of the storefront: catalog products, cart lines, the cart itself,
 the two lookups the `Shop` class performs with `Array.prototype.find`, and the
 two reductions it shows to the user (item count and total price).

 Prices are integer cents, so every sum is exact.
 */
module ShopModel {

  datatype Option<T> = None | Some(value: T)

  /** A catalog entry, loaded once and never changed afterwards. */
  datatype Product = Product(id: int, name: string, price: int, image: string)

  /** One product's entry in the cart: a copy of the product's fields taken
      when it was first added, plus a quantity. */
  datatype CartLine = CartLine(id: int, name: string, price: int, image: string, quantity: int)

  /** The cart, in first-add order. */
  type Cart = seq<CartLine>

  /** The line `addToCart` appends for a product not yet in the cart
      (`{ ...product, quantity: 1 }`). */
  function LineFor(p: Product): CartLine {
    CartLine(p.id, p.name, p.price, p.image, 1)
  }

  /* ---------------------------------------------------------------------
     Cart invariants
     --------------------------------------------------------------------- */

  /** No two lines share a product id. */
  predicate UniqueIds(cart: Cart) {
    forall i, j :: 0 <= i < j < |cart| ==> cart[i].id != cart[j].id
  }

  /** No line is ever observable with a quantity below 1. */
  predicate PositiveQuantities(cart: Cart) {
    forall i :: 0 <= i < |cart| ==> cart[i].quantity >= 1
  }

  predicate ValidCart(cart: Cart) {
    UniqueIds(cart) && PositiveQuantities(cart)
  }

  predicate HasLine(cart: Cart, id: int) {
    exists i :: 0 <= i < |cart| && cart[i].id == id
  }

  predicate InCatalog(catalog: seq<Product>, id: int) {
    exists k :: 0 <= k < |catalog| && catalog[k].id == id
  }

  /* ---------------------------------------------------------------------
     Lookups: `find` returns the first element that matches
     --------------------------------------------------------------------- */

  /** Index of the first line with the given id, as `cart.find`/`findIndex` see it. */
  function FindLine(cart: Cart, id: int): (r: Option<nat>)
    ensures r.None? <==> !HasLine(cart, id)
    ensures r.Some? ==> r.value < |cart| && cart[r.value].id == id
    ensures r.Some? ==> forall k :: 0 <= k < r.value ==> cart[k].id != id
  {
    if |cart| == 0 then None
    else if cart[0].id == id then Some(0)
    else
      match FindLine(cart[1..], id)
      case None =>
        assert forall i :: 1 <= i < |cart| ==> cart[i] == cart[1..][i - 1];
        None
      case Some(k) => Some(k + 1)
  }

  /** The first catalog product with the given id, as `products.find` sees it. */
  function FindProduct(catalog: seq<Product>, id: int): (r: Option<Product>)
    ensures r.None? <==> !InCatalog(catalog, id)
    ensures r.Some? ==> r.value.id == id && r.value in catalog
    ensures r.Some? ==> exists k :: 0 <= k < |catalog| && catalog[k] == r.value && NoProductBefore(catalog, id, k)
  {
    if |catalog| == 0 then None
    else if catalog[0].id == id then
      // 0 is the witness of the existential in the last ensures
      assert NoProductBefore(catalog, id, 0);
      Some(catalog[0])
    else
      var rest := FindProduct(catalog[1..], id);
      assert rest.None? ==> forall k :: 1 <= k < |catalog| ==> catalog[k] == catalog[1..][k - 1];
      assert rest.Some? ==> rest.value in catalog[1..];
      assert rest.Some? ==> exists k :: 0 <= k < |catalog| && catalog[k] == rest.value && NoProductBefore(catalog, id, k) by {
        if rest.Some? {
          var k :| 0 <= k < |catalog[1..]| && catalog[1..][k] == rest.value && NoProductBefore(catalog[1..], id, k);
          assert catalog[k + 1] == rest.value;
          assert forall j :: 1 <= j < k + 1 ==> catalog[j] == catalog[1..][j - 1];
          assert NoProductBefore(catalog, id, k + 1);
        }
      }
      rest
  }

  /** No product before position `k` carries the id. */
  predicate NoProductBefore(catalog: seq<Product>, id: int, k: int) {
    forall j :: 0 <= j < k && j < |catalog| ==> catalog[j].id != id
  }

  /** The line `find` returns for an id that is in the cart. */
  function LineWith(cart: Cart, id: int): CartLine
    requires HasLine(cart, id)
  {
    cart[FindLine(cart, id).value]
  }

  /** In a cart with unique ids, every line with the id is the one `find` returns. */
  lemma LineWithUnique(cart: Cart, id: int, k: nat)
    requires UniqueIds(cart) && k < |cart| && cart[k].id == id
    ensures HasLine(cart, id) && FindLine(cart, id) == Some(k) && LineWith(cart, id) == cart[k]
  {
  }

  /* ---------------------------------------------------------------------
     Reductions
     --------------------------------------------------------------------- */

  function Quantity(l: CartLine): int { l.quantity }

  /** The amount a line contributes to the total: price times quantity. */
  function Subtotal(l: CartLine): int { l.price * l.quantity }

  /** The sum of `f` over the lines of the cart. */
  function SumOf(cart: Cart, f: CartLine -> int): int {
    if |cart| == 0 then 0 else f(cart[0]) + SumOf(cart[1..], f)
  }

  /** The number shown on the cart badge: the sum of the quantities. */
  function ItemCount(cart: Cart): int { SumOf(cart, Quantity) }

  /** The price of the whole cart: the sum of price times quantity. */
  function Total(cart: Cart): int { SumOf(cart, Subtotal) }

  lemma {:induction false} SumAppend(s: Cart, t: Cart, f: CartLine -> int)
    ensures SumOf(s + t, f) == SumOf(s, f) + SumOf(t, f)
  {
    if |s| == 0 {
      assert s + t == t;
    } else {
      assert (s + t)[1..] == s[1..] + t;
      SumAppend(s[1..], t, f);
    }
  }

  /** Prepending a line adds its value to the sum. */
  lemma SumCons(l: CartLine, t: Cart, f: CartLine -> int)
    ensures SumOf([l] + t, f) == f(l) + SumOf(t, f)
  {
    assert ([l] + t)[1..] == t;
  }

  /** A sequence is its prefix, the element at `i`, and its suffix. */
  lemma SplitAt(s: Cart, i: nat)
    requires i < |s|
    ensures s == s[..i] + ([s[i]] + s[i + 1..])
  {
  }

  lemma SumUpdate(s: Cart, i: nat, l: CartLine, f: CartLine -> int)
    requires i < |s|
    ensures SumOf(s[i := l], f) == SumOf(s, f) - f(s[i]) + f(l)
  {
    var a, b := s[..i], s[i + 1..];
    SplitAt(s, i);
    SplitAt(s[i := l], i);
    SumAppend(a, [s[i]] + b, f);
    SumAppend(a, [l] + b, f);
    SumCons(s[i], b, f);
    SumCons(l, b, f);
  }

  lemma SumRemove(s: Cart, i: nat, f: CartLine -> int)
    requires i < |s|
    ensures SumOf(s[..i] + s[i + 1..], f) == SumOf(s, f) - f(s[i])
  {
    var a, b := s[..i], s[i + 1..];
    SplitAt(s, i);
    SumAppend(a, [s[i]] + b, f);
    SumAppend(a, b, f);
    SumCons(s[i], b, f);
  }

  /** The badge reads at least the number of lines, so it reads 0 exactly when
      the cart is empty. */
  lemma {:induction false} ItemCountBounds(cart: Cart)
    requires PositiveQuantities(cart)
    ensures ItemCount(cart) >= |cart|
    ensures ItemCount(cart) == 0 <==> |cart| == 0
  {
    if |cart| > 0 {
      assert PositiveQuantities(cart[1..]) by {
        forall i | 0 <= i < |cart[1..]| ensures cart[1..][i].quantity >= 1 {
          assert cart[1..][i] == cart[i + 1];
        }
      }
      ItemCountBounds(cart[1..]);
    }
  }

  /** With non-negative prices the total is never negative. */
  lemma {:induction false} TotalNonNegative(cart: Cart)
    requires PositiveQuantities(cart)
    requires forall i :: 0 <= i < |cart| ==> cart[i].price >= 0
    ensures Total(cart) >= 0
  {
    if |cart| > 0 {
      assert Subtotal(cart[0]) >= 0 by {
        assert cart[0].price >= 0 && cart[0].quantity >= 1;
      }
      assert forall i :: 0 <= i < |cart[1..]| ==> cart[1..][i] == cart[i + 1];
      TotalNonNegative(cart[1..]);
    }
  }

  /* ---------------------------------------------------------------------
     Reference definition: the cart without a given id
     --------------------------------------------------------------------- */

  /** The lines whose id differs from `id`, in their original order. */
  function Without(cart: Cart, id: int): Cart {
    if |cart| == 0 then []
    else (if cart[0].id == id then [] else [cart[0]]) + Without(cart[1..], id)
  }

  lemma {:induction false} WithoutMembers(cart: Cart, id: int)
    ensures forall l :: l in Without(cart, id) <==> l in cart && l.id != id
  {
    if |cart| > 0 {
      WithoutMembers(cart[1..], id);
      assert cart == [cart[0]] + cart[1..];
    }
  }

  lemma {:induction false} WithoutAbsent(cart: Cart, id: int)
    requires !HasLine(cart, id)
    ensures Without(cart, id) == cart
  {
    if |cart| > 0 {
      assert forall i :: 0 <= i < |cart[1..]| ==> cart[1..][i] == cart[i + 1];
      WithoutAbsent(cart[1..], id);
      assert cart == [cart[0]] + cart[1..];
    }
  }

  lemma WithoutAppend(s: Cart, t: Cart, id: int)
    ensures Without(s + t, id) == Without(s, id) + Without(t, id)
  {
    if |s| == 0 {
      assert s + t == t;
    } else {
      assert (s + t)[1..] == s[1..] + t;
      WithoutAppend(s[1..], t, id);
    }
  }

  lemma WithoutCons(l: CartLine, t: Cart, id: int)
    ensures Without([l] + t, id) == (if l.id == id then [] else [l]) + Without(t, id)
  {
    assert ([l] + t)[1..] == t;
  }

  /** Filtering out the only line with `id` leaves the lines around it. */
  lemma WithoutSplitAt(a: Cart, l: CartLine, b: Cart)
    requires !HasLine(a, l.id) && !HasLine(b, l.id)
    ensures Without(a + ([l] + b), l.id) == a + b
  {
    calc {
      Without(a + ([l] + b), l.id);
      { WithoutAppend(a, [l] + b, l.id); }
      Without(a, l.id) + Without([l] + b, l.id);
      { WithoutCons(l, b, l.id); }
      Without(a, l.id) + Without(b, l.id);
      { WithoutAbsent(a, l.id); WithoutAbsent(b, l.id); }
      a + b;
    }
  }

  /** Removing the one line with `id` from a cart with unique ids is the filter. */
  lemma WithoutIsSplice(cart: Cart, i: nat)
    requires UniqueIds(cart) && i < |cart|
    ensures Without(cart, cart[i].id) == cart[..i] + cart[i + 1..]
  {
    NoneBefore(cart, i);
    NoneAfter(cart, i);
    SplitAt(cart, i);
    WithoutSplitAt(cart[..i], cart[i], cart[i + 1..]);
  }

  lemma NoneBefore(cart: Cart, i: nat)
    requires UniqueIds(cart) && i < |cart|
    ensures !HasLine(cart[..i], cart[i].id)
  {
    assert forall k :: 0 <= k < i ==> cart[..i][k] == cart[k];
  }

  lemma NoneAfter(cart: Cart, i: nat)
    requires UniqueIds(cart) && i < |cart|
    ensures !HasLine(cart[i + 1..], cart[i].id)
  {
    var b := cart[i + 1..];
    assert forall k :: 0 <= k < |b| ==> b[k] == cart[i + 1 + k];
  }
}

=== FILE: scenarios.dfy ===
/**
 Worked examples on concrete data: a case-insensitive search, a descending
 price sort, and a short cart session from an empty cart.
 */
module Scenarios {
  import opened ShopModel
  import opened CatalogView
  import opened Shop

  /** `toLowerCase` restricted to the ASCII letters. */
  function AsciiLower(c: char): char {
    if 'A' <= c <= 'Z' then (c as int + 32) as char else c
  }

  /** The query "art" finds the product named "Arte 1". */
  lemma SearchIgnoresCase()
    ensures Matches(Product(1, "Arte 1", 1090, "arte-1.jpg"), "art", AsciiLower)
  {
    var name, query := LowerCase("Arte 1", AsciiLower), LowerCase("art", AsciiLower);
    assert AsciiLower('A') == 'a';
    assert name[0] == AsciiLower('A') && name[1] == AsciiLower('r') && name[2] == AsciiLower('t');
    assert query[0] == AsciiLower('a') && query[1] == AsciiLower('r') && query[2] == AsciiLower('t');
    assert query <= name[0..];
  }

  /** Prices strictly rise along the sequence. */
  predicate PricesRise(s: seq<Product>) {
    forall i, j :: 0 <= i < j < |s| ==> s[i].price < s[j].price
  }

  /** A catalog listed in rising price order (10.90, 15.90, 21.90, 29.90, ...)
      is shown exactly reversed under `price-desc` with no search. */
  lemma PriceDescendingReversesRisingCatalog(products: seq<Product>, lower: char -> char, nameLe: (string, string) -> bool)
    requires PricesRise(products)
    ensures FilterAndSortProducts(products, [], PriceDesc, lower, nameLe) == Reverse(products)
  {
    SortReversesRising(products);
  }

  /** Sorting by `price-desc` a list whose prices strictly rise reverses it. */
  lemma {:induction false} SortReversesRising(s: seq<Product>)
    requires PricesRise(s)
    ensures Sort(s, PriceDescending) == Reverse(s)
  {
    if |s| > 0 {
      var init, last := s[..|s| - 1], s[|s| - 1];
      assert forall y :: y in init ==> y.price < last.price;
      SortReversesRising(init);
      ReverseMembers(init);
      InsertAtFront(Reverse(init), last, PriceDescending);
    }
  }

  function Reverse(s: seq<Product>): seq<Product> {
    if |s| == 0 then [] else [s[|s| - 1]] + Reverse(s[..|s| - 1])
  }

  lemma {:induction false} ReverseMembers(s: seq<Product>)
    ensures forall y :: y in Reverse(s) ==> y in s
  {
    if |s| > 0 {
      ReverseMembers(s[..|s| - 1]);
      assert s == s[..|s| - 1] + [s[|s| - 1]];
    }
  }

  /** An element that may precede none of `s` is inserted in front of it. */
  lemma {:induction false} InsertAtFront(s: seq<Product>, x: Product, le: (Product, Product) -> bool)
    requires forall y :: y in s ==> !le(y, x)
    ensures Insert(s, x, le) == [x] + s
  {
    if |s| > 0 {
      var init, last := s[..|s| - 1], s[|s| - 1];
      assert s == init + [last];
      assert !le(last, x);
      assert forall y :: y in init ==> y in s;
      InsertAtFront(init, x, le);
      calc {
        Insert(s, x, le);
        Insert(init, x, le) + [last];
        ([x] + init) + [last];
        [x] + s;
      }
    }
  }

  /** From an empty cart: add product 1 (R$ 10.90) twice, then remove it. */
  lemma AddAddRemove(browser: Browser)
    ensures
      var catalog := [Product(1, "Arte 1", 1090, "arte-1.jpg")];
      var s0 := Step(browser, Start(Absent), LoadFinished(Some(catalog)));
      var s1 := Step(browser, s0, AddClicked(1));
      var s2 := Step(browser, s1, AddClicked(1));
      var s3 := Step(browser, s2, RemoveClicked(1));
      && ItemCount(s1.cart) == 1 && Total(s1.cart) == 1090
      && ItemCount(s2.cart) == 2 && Total(s2.cart) == 2180
      && |s2.cart| == 1
      && s3.cart == [] && ItemCount(s3.cart) == 0 && s3.stored == Saved([])
      && s3.writes == 4
  {
    var catalog := [Product(1, "Arte 1", 1090, "arte-1.jpg")];
    var s0 := Step(browser, Start(Absent), LoadFinished(Some(catalog)));
    assert s0.products == catalog && s0.cart == [] && s0.writes == 1;
    assert InCatalog(catalog, 1) by { assert catalog[0].id == 1; }
    var s1 := Step(browser, s0, AddClicked(1));
    assert s1.cart == [CartLine(1, "Arte 1", 1090, "arte-1.jpg", 1)] && s1.writes == 2;
    assert HasLine(s1.cart, 1) by { assert s1.cart[0].id == 1; }
    var s2 := Step(browser, s1, AddClicked(1));
    assert s2.writes == 3;
    assert HasLine(s2.cart, 1) by { assert s2.cart[0].id == 1; }
  }
}

=== FILE: shop.dfy ===
/**
 The `Shop` controller as a state machine: the catalog and its current view,
 the search and sort settings, the cart, and what the `cart` key of local
 storage holds. Each user action is one `Event`; the DOM wiring that turns
 clicks and keystrokes into these events (including `Number.parseInt` of the
 `data-id` attribute and the `trim` of the search box) is not modelled.

 Storage is write-through: every successful cart mutation ends in
 `updateCartCount`, which writes the whole cart, and a no-op writes nothing.
 */
module Shop {
  import opened ShopModel
  import opened CartEngine
  import opened CatalogView
  import opened CheckoutFlow

  /** The `cart` key of local storage: missing, holding text `JSON.parse`
      rejects, or holding a serialized cart. */
  datatype Stored = Absent | Unreadable | Saved(lines: Cart)

  /** `localStorage.setItem("cart", JSON.stringify(cart))`; it is read back
      unchanged. */
  function Save(cart: Cart): (s: Stored)
    ensures Restore(s) == cart
    ensures s.Saved?
  {
    Saved(cart)
  }

  /** The cart part of `loadFromLocalStorage`: a missing key leaves the
      constructor's empty cart, unreadable data resets it to empty. */
  function Restore(s: Stored): (cart: Cart)
    ensures s.Saved? ==> cart == s.lines
    ensures !s.Saved? ==> cart == []
  {
    match s
    case Absent => []
    case Unreadable => []
    case Saved(lines) => lines
  }

  /** The evident intent of the module-level `loadFromLocalStorage` fragment
      (its `cart` is not declared anywhere in the file and nothing calls it):
      `Number(item.price)` leaves an integer price as it is, and unreadable
      data is only logged, so the cart held before the call survives it. */
  function RestoreCoercing(s: Stored, current: Cart): (cart: Cart)
    ensures s.Saved? ==> cart == Restore(s)
    ensures !s.Saved? ==> cart == current
    ensures s == Unreadable && current != [] ==> cart != Restore(s)
  {
    match s
    case Saved(lines) => lines
    case _ => current
  }

  /** The two browser facilities the catalog view depends on. */
  datatype Browser = Browser(lower: char -> char, nameLe: (string, string) -> bool)

  datatype State = State(
    products: seq<Product>,
    view: seq<Product>,
    query: string,
    sort: SortOption,
    cart: Cart,
    stored: Stored,
    writes: nat)

  datatype Event =
    | AddClicked(id: int)
    | IncreaseClicked(id: int)
    | DecreaseClicked(id: int)
    | RemoveClicked(id: int)
    | ClearClicked
    | CheckoutClicked(customer: Customer)
    | SearchTyped(query: string)
    | SortChosen(option: SortOption)
    // `init` resumes after `await this.loadProducts()`: the catalog load
    // ends (`None` is a failed fetch) and `updateCartCount` writes the cart
    | LoadFinished(loaded: Option<seq<Product>>)
    | RetryLoad(loaded: Option<seq<Product>>)

  /** Reading storage back would give the current cart. */
  predicate InSync(s: State) {
    Restore(s.stored) == s.cart
  }

  /** The first half of `init`, up to `await this.loadProducts()`: the cart is
      restored, nothing is written yet, and the catalog is still the
      constructor's empty list. The listeners are already attached, so user
      events may arrive before `LoadFinished`. */
  function Start(stored: Stored): (s: State)
    ensures InSync(s) && s.writes == 0 && s.stored == stored
    ensures stored.Saved? ==> s.cart == stored.lines
    ensures !stored.Saved? ==> s.cart == []
    ensures s.products == [] && s.view == []
    ensures s.query == [] && s.sort == Default
  {
    State([], [], [], Default, Restore(stored), stored, 0)
  }

  /** Takes over the cart an operation produced, writing it to storage once
      per `updateCartCount` call the operation made. */
  function Apply(s: State, o: Outcome): State {
    s.(cart := o.cart, stored := if o.saves > 0 then Save(o.cart) else s.stored, writes := s.writes + o.saves)
  }

  /** A load that succeeded replaces the catalog and shows all of it. */
  function Loaded(s: State, loaded: Option<seq<Product>>): State {
    if loaded.Some? then s.(products := loaded.value, view := loaded.value) else s
  }

  function Step(b: Browser, s: State, e: Event): (r: State)
    // write-through: storage never falls behind the cart
    ensures InSync(s) ==> InSync(r)
    ensures r.writes != s.writes ==> r.stored == Save(r.cart)
    // a user event writes exactly when it changes the cart; the end of
    // `init` writes the unchanged cart once
    ensures !e.LoadFinished? ==> (r.writes != s.writes <==> r.cart != s.cart)
    ensures e.LoadFinished? ==> r.writes == s.writes + 1 && r.cart == s.cart
    ensures r.writes <= s.writes + 1
    ensures r.writes == s.writes ==> r.stored == s.stored && r.cart == s.cart
    // the cart invariants survive every event
    ensures ValidCart(s.cart) ==> ValidCart(r.cart)
    // only a successful load replaces the catalog, and then shows all of it
    ensures !((e.LoadFinished? || e.RetryLoad?) && e.loaded.Some?) ==> r.products == s.products
    ensures (e.LoadFinished? || e.RetryLoad?) && e.loaded.Some? ==>
      r.products == e.loaded.value && r.view == e.loaded.value
    // the view is recomputed from the catalog on every search or sort change
    ensures e.SearchTyped? || e.SortChosen? ==>
      && multiset(r.view) == multiset(FilterProducts(r.products, r.query, b.lower))
      && (r.sort == Default ==> SubsequenceOf(r.view, r.products))
      && (r.query == [] && r.sort == Default ==> r.view == r.products)
  {
    match e
    case AddClicked(id) => Apply(s, AddToCart(s.products, s.cart, id))
    case IncreaseClicked(id) => Apply(s, IncreaseQuantity(s.cart, id))
    case DecreaseClicked(id) => Apply(s, DecreaseQuantity(s.cart, id))
    case RemoveClicked(id) => Apply(s, RemoveFromCart(s.cart, id))
    case ClearClicked => Apply(s, ClearCart(s.cart))
    case CheckoutClicked(customer) => Apply(s, Checkout(s.cart, customer).after)
    case SearchTyped(query) =>
      s.(query := query, view := FilterAndSortProducts(s.products, query, s.sort, b.lower, b.nameLe))
    case SortChosen(option) =>
      s.(sort := option, view := FilterAndSortProducts(s.products, s.query, option, b.lower, b.nameLe))
    case LoadFinished(loaded) =>
      Loaded(s, loaded).(stored := Save(s.cart), writes := s.writes + 1)
    case RetryLoad(loaded) => Loaded(s, loaded)
  }

  /** The state after a sequence of events. */
  function Run(b: Browser, s: State, events: seq<Event>): State
    decreases |events|
  {
    if |events| == 0 then s else Run(b, Step(b, s, events[0]), events[1..])
  }

  /** Every state reached from a synced state keeps storage in sync with the
      cart, and keeps the cart valid if it was. */
  lemma {:induction false} RunKeepsInvariants(b: Browser, s: State, events: seq<Event>)
    requires InSync(s)
    ensures InSync(Run(b, s, events))
    ensures ValidCart(s.cart) ==> ValidCart(Run(b, s, events).cart)
    ensures Run(b, s, events).writes >= s.writes
    decreases |events|
  {
    if |events| > 0 {
      var next := Step(b, s, events[0]);
      assert InSync(next) && next.writes >= s.writes && (ValidCart(s.cart) ==> ValidCart(next.cart));
      assert Run(b, s, events) == Run(b, next, events[1..]);
      RunKeepsInvariants(b, next, events[1..]);
    }
  }

  lemma {:induction false} RunSnoc(b: Browser, s: State, events: seq<Event>, e: Event)
    ensures Run(b, s, events + [e]) == Step(b, Run(b, s, events), e)
    decreases |events|
  {
    if |events| > 0 {
      assert (events + [e])[1..] == events[1..] + [e];
      RunSnoc(b, Step(b, s, events[0]), events[1..], e);
    }
  }

  /** `init` with no user event during the load: the catalog is the loaded
      one (empty after a failed fetch), the restored cart is written once,
      the search is empty and the sort is `default`. */
  lemma InitAlone(b: Browser, stored: Stored, loaded: Option<seq<Product>>)
    ensures
      var s := Step(b, Start(stored), LoadFinished(loaded));
      && s.cart == Restore(stored) && s.stored == Save(s.cart) && s.writes == 1
      && (loaded.Some? ==> s.products == loaded.value && s.view == loaded.value)
      && (loaded.None? ==> s.products == [] && s.view == [])
      && s.query == [] && s.sort == Default
  {
  }

  /** Whatever the user does while `init` awaits the catalog, once `init`
      finishes storage holds exactly the current cart, and a valid restored
      cart is still valid. */
  lemma InitInterleaved(b: Browser, stored: Stored, during: seq<Event>, loaded: Option<seq<Product>>)
    ensures
      var s := Run(b, Start(stored), during + [LoadFinished(loaded)]);
      && s.stored == Save(s.cart)
      && (ValidCart(Restore(stored)) ==> ValidCart(s.cart))
      && (loaded.Some? ==> s.products == loaded.value && s.view == loaded.value)
  {
    RunSnoc(b, Start(stored), during, LoadFinished(loaded));
    RunKeepsInvariants(b, Start(stored), during);
  }

  /** Choosing `default` with an empty search shows the catalog in its own
      order, whatever sort was shown before. */
  lemma DefaultRestoresCatalogOrder(b: Browser, s: State)
    requires s.query == []
    ensures Step(b, s, SortChosen(Default)).view == s.products
  {
    assert Step(b, s, SortChosen(Default)).view == FilterAndSortProducts(s.products, [], Default, b.lower, b.nameLe);
  }
}

=== FILE: totals.dfy ===
/**
 The two places the source folds the cart into a number, written as the loops
 it runs: the `reduce` in `updateCartCount` (the badge) and the accumulation
 in `updateCartModal` / `checkout` (the total). Each is shown to agree with the
 recursive definition in `ShopModel`.
 */
module Totals {
  import opened ShopModel

  /** Folding one more line onto a prefix adds that line's share. */
  lemma SumOfPrefix(cart: Cart, i: nat, f: CartLine -> int)
    requires i < |cart|
    ensures SumOf(cart[..i + 1], f) == SumOf(cart[..i], f) + f(cart[i])
  {
    assert cart[..i + 1] == cart[..i] + [cart[i]];
    SumAppend(cart[..i], [cart[i]], f);
  }

  /** `cart.reduce((sum, item) => sum + item.quantity, 0)`. */
  method CountItems(cart: Cart) returns (totalItems: int)
    ensures totalItems == ItemCount(cart)
    ensures PositiveQuantities(cart) ==> totalItems >= |cart|
  {
    totalItems := 0;
    var i := 0;
    while i < |cart|
      invariant 0 <= i <= |cart|
      invariant totalItems == SumOf(cart[..i], Quantity)
    {
      SumOfPrefix(cart, i, Quantity);
      totalItems := totalItems + cart[i].quantity;
      i := i + 1;
    }
    assert cart[..i] == cart;
    if PositiveQuantities(cart) {
      ItemCountBounds(cart);
    }
  }

  /** `total += item.price * item.quantity` over the cart, as the cart modal
      and the checkout message compute it. */
  method CartTotal(cart: Cart) returns (total: int)
    ensures total == Total(cart)
    ensures PositiveQuantities(cart) && (forall i :: 0 <= i < |cart| ==> cart[i].price >= 0) ==> total >= 0
  {
    total := 0;
    var i := 0;
    while i < |cart|
      invariant 0 <= i <= |cart|
      invariant total == SumOf(cart[..i], Subtotal)
    {
      SumOfPrefix(cart, i, Subtotal);
      total := total + cart[i].price * cart[i].quantity;
      i := i + 1;
    }
    assert cart[..i] == cart;
    if PositiveQuantities(cart) && (forall i :: 0 <= i < |cart| ==> cart[i].price >= 0) {
      TotalNonNegative(cart);
    }
  }
}
